=== FILE: README.md ===
# Node remover — a Dafny model

A browser extension that lets a user hide page elements site by site. The user types
CSS selector paths into a popup, separated by commas. The popup removes the matching
nodes from the active tab at once and saves the list under a key derived from the tab's
URL. Whenever a page of that site is loaded later, a content script reads the list back
and removes the nodes again.

The model covers the two scripts the extension consists of:

- `popup.js`: the popup's handlers (open, submit, clear), its storage helpers, the
  selector parsing, the `", "` display of a list and the `/.+\.com/` key normalisation.
- `index.js`: the page agent. It runs in direct mode when the popup has set the global
  `nodePaths`, and in autonomous mode otherwise, keyed by `window.location.origin`.

Modules:

| module | file | what it holds |
|---|---|---|
| `Wrappers` | `wrappers.dfy` | `Option` |
| `Sequences` | `sequences.dfy` | order-preserving deletion (`IsSubsequence`) |
| `Text` | `text.dfy` | JavaScript `trim` (its full whitespace set), `split` on one character, `join` |
| `Selectors` | `selectors.dfy` | parsing the field into a list, displaying a list in the field |
| `UrlKey` | `urlkey.dfy` | the regular expression `/.+\.com/` and the storage key taken from a tab URL |
| `Storage` | `storage.dfy` | records in synchronized storage: load, save, remove |
| `PageAgent` | `pageagent.dfy` | `removeNodes`, `removeNodesFromStorage`, `main` of the page agent |
| `Popup` | `popup.dfy` | the popup's handlers and the flows between popup, storage and page |

How things are represented:

- **The document** is the sequence of its live nodes in document order. Two relations
  are parameters: `matches(selector, node)` stands for selector matching, and
  `inside(n, m)` says `n` is a descendant of `m`. Removing a node removes its subtree.
  Whether a selector matches a node does not depend on what has already been removed;
  a later selector simply sees fewer nodes.
- **Selector validity** is a parameter too. `querySelectorAll` throws on an invalid
  selector. `removeNodes` (`index.js:27-40`) does not catch the exception, so the model
  stops at the first invalid selector and keeps the removals already made.
- **Loading** has three results, as the callback of `getSavedNodePaths` sees them:
  - an array;
  - `undefined`, when the record lacks `nodePaths`;
  - `null`, when the host reports an error.

  An absent record reads as `[]`, because of the caught `TypeError`. Both callers test
  the value for truthiness, and an empty array counts as truthy. `index.js:51-69` holds
  a copy of the same function as `popup.js:59-77`, and both are modelled by
  `Storage.Load`.
- **The storage key** is the leftmost, then longest, match of `/.+\.com/`, with `.`
  excluding the four JavaScript line terminators. If there is no match, the key is the
  whole URL.
  - Without line terminators, the key is everything up to and including the last
    `.com` that has at least one character before it.
  - The key equals the page's origin only for URLs shaped like
    `https://host.com/...` with no later `.com`.
  - A port, or a `.com` later in the path, makes the popup's key differ from the origin
    the content script loads by. `KeyDropsPort`, `KeyKeepsPathWithoutDotCom` and
    `KeyMismatchLosesList` state these consequences.
  - For the same reason, clearing from a page whose key differs from its origin does
    not stop removals on reload: a record saved under the origin itself, say from the
    site's root page, is not the one the popup removes.
  - The behaviour is modelled as written, not corrected.

Three behaviours of the code that the model keeps as written:

- **An invalid selector stops the rest of the list.** Nothing catches the `SyntaxError`
  that `querySelectorAll` throws (`index.js:31`). The removals of the earlier selectors
  stay made.
- **The field is emptied before `remove` runs.** `clearStorage` calls `cb()` while
  building the arguments to `remove` (`popup.js:97`). So the field is emptied whatever
  the removal's result.
- **Autonomous mode acts on any truthy value** (`index.js:21`). An empty array `[]` is
  truthy and removes nothing.

## Model

| member | source | states |
|---|---|---|
| `Text.Trim` | popup.js:141 | the trimmed text is no longer than the input and neither starts nor ends with JavaScript whitespace |
| `Text.TrimShape` | popup.js:141 | the trimmed text is a contiguous slice of the input, and only whitespace lies before and after it |
| `Text.TrimUnpads` | popup.js:141 | trimming whitespace padding off an already-trimmed text gives that text back |
| `Text.TrimIgnoresPadding` | popup.js:141 | extra whitespace around a text does not change its trim |
| `Text.TrimIdempotent` | popup.js:141 | trimming twice is trimming once |
| `Text.Split` | popup.js:141 | `split(/,/)` yields at least one piece, and no piece contains a comma |
| `Text.Join` | popup.js:134 | `join(sep)` of no parts is the empty text; otherwise its length is that of all parts plus one separator between each pair of neighbours |
| `Text.JoinSplit` | popup.js:141 | joining the pieces of a split with the separator gives back the original text |
| `Text.SplitJoin` | popup.js:134 | splitting a join of separator-free parts at the separator gives back exactly those parts |
| `Selectors.TrimEach` | popup.js:141 | `map(path => path.trim())` keeps the length, and each element is the trim of the piece at its index |
| `Selectors.DropEmpty` | popup.js:141 | `filter(id => id !== '')` keeps no empty element, keeps a string iff it occurs non-empty in the input, and keeps the input's order |
| `Selectors.DropEmptyCounts` | popup.js:141 | the filter keeps every non-empty element exactly as often as it occurs, and none of the empty ones |
| `Selectors.ParseSelectors` | popup.js:141 | every parsed path is non-empty, trimmed and comma-free, and a blank field parses to the empty list |
| `Selectors.ParseIsCleanedSegments` | popup.js:141 | trimming the whole field before splitting makes no difference to the parsed list |
| `Selectors.ParsePaddedWithBlank` | popup.js:141 | entries separated by padded commas, with an empty entry between, parse to exactly those entries |
| `Selectors.ParseExample` | popup.js:141 | `"div.ad, #banner ,, .tracker"` parses to `["div.ad", "#banner", ".tracker"]` |
| `Selectors.Display` | popup.js:134 | the displayed text of no paths is empty; otherwise its length is the paths' total length plus two (for `", "`) between each pair of neighbours |
| `Selectors.DisplaySplits` | popup.js:134 | the displayed text of comma-free paths splits at its commas into the first path, then each later path behind one space: the text is exactly the paths joined by `", "` |
| `Selectors.ParseDisplayRoundTrip` | popup.js:134 | a list of well-formed paths shown with `join(', ')` parses back to the same list |
| `Selectors.ReparseDisplayed` | popup.js:134 | displaying a parsed list and parsing it again gives the same list |
| `UrlKey.MatchDotCom` | popup.js:38 | `match` is null exactly when no match exists, and otherwise returns the text of the leftmost-longest match |
| `UrlKey.FirstMatchOfSingleLine` | popup.js:38 | on a line without terminators, the chosen match starts at index 0 and ends at the last `.com` |
| `UrlKey.MatchIsKeyShaped` | popup.js:38 | the matched text has no line terminator and ends in its own last `.com` |
| `UrlKey.StorageKey` | popup.js:38-39 | the key is the whole URL when nothing matches, and otherwise the match; on one line it is the prefix up to the last `.com` that starts at index 1 or later |
| `UrlKey.StorageKeyIdempotent` | popup.js:38-39 | deriving the key from a key gives the same key |
| `UrlKey.KeyIsDotComOrigin` | popup.js:38-39 | a `.com` origin followed by a path with no further `.com` keys to the origin itself |
| `UrlKey.KeyDropsPort` | popup.js:38-39 | for `host.com:port/path` the key drops the port, so it differs from the origin with its port |
| `UrlKey.KeyKeepsPathWithoutDotCom` | popup.js:38-39 | a URL without `.com` keys to the whole URL, path included, so it differs from its origin |
| `Storage.Load` | popup.js:63-75 | the result is null exactly on a host error; an absent record reads as `[]`; undefined exactly when `nodePaths` is missing; otherwise the stored list |
| `Storage.Save` | popup.js:85-93 | after a save, the key loads back the saved list when there is no error; every other key loads as before |
| `Storage.Remove` | popup.js:95-97 | after removal the key is absent and loads as `[]`; every other key loads as before |
| `Storage.SaveOverwrites` | popup.js:85-93 | a second save under the same key replaces the first completely |
| `Storage.RemoveUndoesSave` | popup.js:95-97 | removing a key after saving it leaves the same store as removing it without the save |
| `Storage.IsTruthy` | popup.js:133 | the `if (paths)` test here and at index.js:21: every loaded array, `[]` included, is truthy; `null` and `undefined` are not |
| `PageAgent.RemoveMatching` | index.js:31-37 | one selector removes exactly the nodes that it matches or that lie below a match; the order of the rest is kept |
| `PageAgent.Sweep` | index.js:30-39 | applying the selectors one after another only deletes nodes, never reorders or adds them |
| `PageAgent.RemoveNodes` | index.js:27-40 | the run completes iff every selector is valid; otherwise it stops at the first invalid one, with the removals of the earlier selectors made |
| `PageAgent.RemoveNodesFromStorage` | index.js:18-25 | the page is untouched on a read error, an absent record or a record without `nodePaths`; otherwise the saved list is applied |
| `PageAgent.Main` | index.js:8-16 | with the global `nodePaths` set, it applies that list; otherwise it loads by origin, and leaves the page untouched on an error or when nothing is saved |
| `PageAgent.SweepRemovesHidden` | index.js:30-39 | in a tree, a node survives the sweep iff no selector matches it or an ancestor in the original document |
| `PageAgent.SweepKeepsUnhidden` | index.js:30-39 | a document none of whose nodes the list reaches comes out of the sweep unchanged |
| `PageAgent.NothingToRemove` | index.js:30-37 | when no selector matches any node, the page is unchanged, whether or not a selector threw |
| `PageAgent.SweptAreUnhidden` | index.js:30-39 | no node left by the sweep is matched, or lies below a match, by any selector of the list within what is left |
| `PageAgent.SweepIdempotent` | index.js:30-39 | sweeping the result of a sweep with the same list changes nothing |
| `PageAgent.RemoveNodesIdempotent` | index.js:27-40 | running the agent again with the same list gives the same outcome and removes nothing more |
| `Popup.Inject` | popup.js:103-117 | injecting a list does what the page agent's direct mode does with it: the selectors before the first invalid one are applied; with all valid it is the full sweep; an empty list changes nothing |
| `Popup.Open` | popup.js:131-137 | opening never changes storage; a falsy load leaves everything alone; a truthy load shows the list `join(', ')`-ed in the field and applies it to the tab; when the host reports no error, a saved well-formed list shows as text that parses back to it |
| `Popup.Submit` | popup.js:139-145 | submit keeps the field, applies the parsed field to the tab, and saves exactly that list under the tab's key, which loads it back when there is no error; other keys are untouched; a blank field leaves the page alone |
| `Popup.ClearClick` | popup.js:147-151 | clearing empties the field, removes the tab's key, leaves other keys and the page's nodes alone |
| `Popup.SubmitThenReopen` | popup.js:131-145 | when the host reports no error, reopening after a submit shows the submitted list, which parses back to it, and leaves the tab as the submit did, for any matching and descendant relations |
| `Popup.SubmitThenPageLoad` | popup.js:139-145 | when the host reports no error, a later visit whose origin is the popup's key does what the submit did; in a tree (`inside` transitive), with valid selectors, it removes exactly the nodes matched or under a match |
| `Popup.ClearThenReopen` | popup.js:131-151 | after a clear, reopening shows an empty field and changes nothing, and a later visit whose origin is the cleared key removes nothing, whatever the host reports |
| `Popup.KeyMismatchLosesList` | popup.js:38-39 | when the popup's key differs from the page's origin and nothing is saved under the origin itself, a later visit does not find the saved list and removes nothing, whatever the host reports |

## Left out

- The browser APIs are replaced by values:
  - `chrome.tabs.query` becomes the tab URL, a parameter.
  - `chrome.storage.sync` becomes the `Store` value.
  - `chrome.runtime.lastError` becomes a flag of the store.
  - `chrome.tabs.executeScript` becomes the call to the page agent's direct mode.
- The asynchronous ordering of callbacks is not modelled. Each handler is one atomic
  step. Storage shared by several popups or devices is not modelled.
- The list passes to the page through `JSON.stringify` into a `var nodePaths = ...`
  statement. This is modelled as the list arriving unchanged.
- Real CSS selector syntax and matching are not modelled. Both are the parameters
  `valid` and `matches`. Selectors whose matches depend on other nodes having been
  removed (`:empty`, `:nth-child`) fall outside that abstraction.
- Logging (`console.log`, `console.group`) is not modelled; it has no effect on state.
- `chrome.storage.sync.set` never fails in the model. Its errors, and `remove`'s, are
  not reported to the code, and write quotas are not modelled.
- Values in storage that are not arrays of strings (a hand-edited record) are not
  modelled.
- The `else { throw error; }` branch of `getSavedNodePaths` is not modelled. Reading
  `items[url].nodePaths` can only throw a `TypeError`.
- The popup's field starts with whatever the HTML page gives it. The model takes the
  starting field as part of the state.
- `Text.Trim`: its contract states that the result is trimmed and no longer than the
  input. The exact slice it returns is stated separately by `Text.TrimShape`.
- `Selectors.DropEmpty`: its contract does not count repeated entries. That each
  non-empty entry is kept as often as it occurs (`"a, a"` gives `["a", "a"]`) is stated
  by `Selectors.DropEmptyCounts`.
- `PageAgent.Sweep`: its contract states only that nodes are deleted. Which nodes are
  deleted is stated by `PageAgent.SweepRemovesHidden`, under the assumption that
  descendant-of is transitive, as it is in a DOM tree.

=== FILE: pageagent.dfy ===
/**
 * The page agent (`index.js`): removes every node matched by a list of
 * selector paths, either from a list placed in the page by the popup
 * (direct mode) or from the list saved for the page's origin (autonomous
 * mode).
 *
 * The document is the sequence of its live nodes in document order.
 * Selector matching is a parameter `matches(selector, node)`, and
 * `inside(n, m)` says that node `n` is a descendant of node `m`: removing
 * `m` takes its whole subtree out of the document. Whether a selector is
 * syntactically valid is the parameter `valid`; `querySelectorAll` throws
 * on an invalid one, and nothing in `index.js` catches it.
 */
module PageAgent {
  import opened Wrappers
  import opened Sequences
  import opened Storage

  type NodeId = nat

  /** What running the agent leaves behind: the document, and whether a selector threw. */
  datatype Outcome =
    | Completed(doc: seq<NodeId>)
    | Threw(doc: seq<NodeId>, at: nat)  // `at` is the index of the selector that threw

  /** Node `n` goes when `sel` is applied to `nodes`: a node of `nodes` matching `sel` is `n` or an ancestor of it. */
  predicate Hit(nodes: seq<NodeId>, sel: string, n: NodeId,
                matches: (string, NodeId) -> bool, inside: (NodeId, NodeId) -> bool)
  {
    exists m :: m in nodes && matches(sel, m) && (m == n || inside(n, m))
  }

  /**
   * Reference meaning of a whole run: node `n` is hidden by `sels` when some
   * selector of the list matches `n` or an ancestor of `n` in the original
   * document.
   */
  ghost predicate Hidden(nodes: seq<NodeId>, sels: seq<string>, n: NodeId,
                         matches: (string, NodeId) -> bool, inside: (NodeId, NodeId) -> bool)
  {
    exists i, m :: 0 <= i < |sels| && m in nodes && matches(sels[i], m) && (m == n || inside(n, m))
  }

  /** The containment relation of a tree is transitive: a descendant of a descendant is a descendant. */
  ghost predicate Transitive(inside: (NodeId, NodeId) -> bool) {
    forall a, b, c :: inside(a, b) && inside(b, c) ==> inside(a, c)
  }

  /** The nodes of `rest` that no match of `sel` in `all` covers, in order. */
  function KeepUnhit(rest: seq<NodeId>, all: seq<NodeId>, sel: string,
                     matches: (string, NodeId) -> bool, inside: (NodeId, NodeId) -> bool): (r: seq<NodeId>)
    ensures IsSubsequence(r, rest)
    ensures forall n :: n in r <==> n in rest && !Hit(all, sel, n, matches, inside)
  {
    if |rest| == 0 then []
    else
      var tail := KeepUnhit(rest[1..], all, sel, matches, inside);
      assert rest == [rest[0]] + rest[1..];
      if Hit(all, sel, rest[0], matches, inside) then tail else [rest[0]] + tail
  }

  /**
   * One selector of `removeNodes`: `querySelectorAll(sel)` then `remove()`
   * on each match, which takes the match and its subtree out of the page.
   */
  function RemoveMatching(nodes: seq<NodeId>, sel: string,
                          matches: (string, NodeId) -> bool, inside: (NodeId, NodeId) -> bool): (r: seq<NodeId>)
    ensures IsSubsequence(r, nodes)
    ensures forall n :: n in r <==> n in nodes && !Hit(nodes, sel, n, matches, inside)
  {
    KeepUnhit(nodes, nodes, sel, matches, inside)
  }

  /** The selectors applied one after another, each to what the previous ones left. */
  function Sweep(nodes: seq<NodeId>, sels: seq<string>,
                 matches: (string, NodeId) -> bool, inside: (NodeId, NodeId) -> bool): (r: seq<NodeId>)
    ensures IsSubsequence(r, nodes)
    ensures forall n :: n in r ==> n in nodes
    decreases |sels|
  {
    if |sels| == 0 then SubsequenceRefl(nodes); nodes
    else
      var next := RemoveMatching(nodes, sels[0], matches, inside);
      var r := Sweep(next, sels[1..], matches, inside);
      SubsequenceTrans(r, next, nodes);
      r
  }

  /**
   * `removeNodes(nodePaths)`: the selectors in list order; the first invalid
   * one throws out of the loop, and the removals already made stay.
   */
  function RemoveNodes(nodes: seq<NodeId>, paths: seq<string>,
                       matches: (string, NodeId) -> bool, inside: (NodeId, NodeId) -> bool,
                       valid: string -> bool): (r: Outcome)
    ensures r.Completed? <==> forall i :: 0 <= i < |paths| ==> valid(paths[i])
    ensures r.Threw? ==> r.at < |paths| && !valid(paths[r.at]) && forall i :: 0 <= i < r.at ==> valid(paths[i])
    ensures r.Completed? ==> r.doc == Sweep(nodes, paths, matches, inside)
    ensures r.Threw? ==> r.doc == Sweep(nodes, paths[..r.at], matches, inside)
    ensures IsSubsequence(r.doc, nodes)
    decreases |paths|
  {
    if |paths| == 0 then SubsequenceRefl(nodes); Completed(nodes)
    else if !valid(paths[0]) then
      assert paths[..0] == [];
      Threw(nodes, 0)
    else
      var next := RemoveMatching(nodes, paths[0], matches, inside);
      var rest := RemoveNodes(next, paths[1..], matches, inside, valid);
      SubsequenceTrans(rest.doc, next, nodes);
      match rest
      case Completed(d) =>
        Completed(d)
      case Threw(d, at) =>
        assert paths[..at + 1][1..] == paths[1..][..at];
        Threw(d, at + 1)
  }

  /** `removeNodesFromStorage(origin)`: load the origin's list and remove its nodes if the value is truthy. */
  function RemoveNodesFromStorage(origin: string, store: Store, nodes: seq<NodeId>,
                                  matches: (string, NodeId) -> bool, inside: (NodeId, NodeId) -> bool,
                                  valid: string -> bool): (r: Outcome)
    ensures store.lastError ==> r == Completed(nodes)
    ensures !store.lastError && origin !in store.items ==> r == Completed(nodes)
    ensures !store.lastError && origin in store.items && store.items[origin].nodePaths.None? ==> r == Completed(nodes)
    ensures !store.lastError && origin in store.items && store.items[origin].nodePaths.Some? ==>
              r == RemoveNodes(nodes, store.items[origin].nodePaths.value, matches, inside, valid)
  {
    var loaded := Load(store, origin);
    if IsTruthy(loaded) then
      RemoveNodes(nodes, loaded.paths, matches, inside, valid)
    else
      Completed(nodes)
  }

  /**
   * `main()`: direct mode when the popup has defined the global `nodePaths`,
   * otherwise autonomous mode keyed by `window.location.origin`.
   */
  function Main(global: Option<seq<string>>, origin: string, store: Store, nodes: seq<NodeId>,
                matches: (string, NodeId) -> bool, inside: (NodeId, NodeId) -> bool,
                valid: string -> bool): (r: Outcome)
    ensures global.Some? ==> r == RemoveNodes(nodes, global.value, matches, inside, valid)
    ensures global.None? ==> r == RemoveNodesFromStorage(origin, store, nodes, matches, inside, valid)
    ensures global.None? && (store.lastError || origin !in store.items) ==> r == Completed(nodes)
  {
    match global
    case Some(paths) => RemoveNodes(nodes, paths, matches, inside, valid)
    case None => RemoveNodesFromStorage(origin, store, nodes, matches, inside, valid)
  }

  /** A node covered by a match of the first selector is hidden by the list. */
  lemma HitIsHidden(nodes: seq<NodeId>, sels: seq<string>, n: NodeId,
                    matches: (string, NodeId) -> bool, inside: (NodeId, NodeId) -> bool)
    requires |sels| > 0 && Hit(nodes, sels[0], n, matches, inside)
    ensures Hidden(nodes, sels, n, matches, inside)
  {
    var m :| m in nodes && matches(sels[0], m) && (m == n || inside(n, m));
    assert 0 <= 0 < |sels| && matches(sels[0], m);
  }

  /** What the later selectors hide in a smaller document, the whole list hides in the larger one. */
  lemma HiddenByTail(small: seq<NodeId>, nodes: seq<NodeId>, sels: seq<string>, n: NodeId,
                     matches: (string, NodeId) -> bool, inside: (NodeId, NodeId) -> bool)
    requires |sels| > 0 && forall m :: m in small ==> m in nodes
    requires Hidden(small, sels[1..], n, matches, inside)
    ensures Hidden(nodes, sels, n, matches, inside)
  {
    var i, m :| 0 <= i < |sels[1..]| && m in small && matches(sels[1..][i], m) && (m == n || inside(n, m));
    assert sels[1..][i] == sels[i + 1];
  }

  /**
   * A node hidden by the list is hit by its first selector, or is hidden by
   * the rest of the list in what the first selector leaves; this is where
   * the subtree relation has to be transitive.
   */
  lemma HiddenSplits(nodes: seq<NodeId>, sels: seq<string>, n: NodeId,
                     matches: (string, NodeId) -> bool, inside: (NodeId, NodeId) -> bool)
    requires Transitive(inside) && |sels| > 0
    requires Hidden(nodes, sels, n, matches, inside)
    ensures Hit(nodes, sels[0], n, matches, inside)
         || Hidden(RemoveMatching(nodes, sels[0], matches, inside), sels[1..], n, matches, inside)
  {
    var next := RemoveMatching(nodes, sels[0], matches, inside);
    var i, m :| 0 <= i < |sels| && m in nodes && matches(sels[i], m) && (m == n || inside(n, m));
    if i == 0 {
      assert Hit(nodes, sels[0], n, matches, inside);
    } else if m in next {
      assert sels[1..][i - 1] == sels[i];
      assert Hidden(next, sels[1..], n, matches, inside);
    } else {
      var top :| top in nodes && matches(sels[0], top) && (top == m || inside(m, top));
      if top != m && m != n {
        assert inside(n, m) && inside(m, top);
      }
      assert Hit(nodes, sels[0], n, matches, inside);
    }
  }

  /**
   * Applying the selectors in turn removes exactly the nodes that some
   * selector matches, or sits below a match of, in the original document:
   * removing a node early never saves a node that a later selector would
   * have reached.
   */
  lemma {:induction false} SweepRemovesHidden(nodes: seq<NodeId>, sels: seq<string>,
                                              matches: (string, NodeId) -> bool, inside: (NodeId, NodeId) -> bool)
    requires Transitive(inside)
    ensures forall n :: n in Sweep(nodes, sels, matches, inside) <==> n in nodes && !Hidden(nodes, sels, n, matches, inside)
    decreases |sels|
  {
    if |sels| > 0 {
      var next := RemoveMatching(nodes, sels[0], matches, inside);
      SweepRemovesHidden(next, sels[1..], matches, inside);
      forall n | Hidden(nodes, sels, n, matches, inside)
        ensures Hit(nodes, sels[0], n, matches, inside) || Hidden(next, sels[1..], n, matches, inside)
      {
        HiddenSplits(nodes, sels, n, matches, inside);
      }
      forall n | Hit(nodes, sels[0], n, matches, inside)
        ensures Hidden(nodes, sels, n, matches, inside)
      {
        HitIsHidden(nodes, sels, n, matches, inside);
      }
      forall n | Hidden(next, sels[1..], n, matches, inside)
        ensures Hidden(nodes, sels, n, matches, inside)
      {
        HiddenByTail(next, nodes, sels, n, matches, inside);
      }
    }
  }

  lemma {:induction false} KeepAllUnhit(rest: seq<NodeId>, all: seq<NodeId>, sel: string,
                                        matches: (string, NodeId) -> bool, inside: (NodeId, NodeId) -> bool)
    requires forall n :: n in rest ==> !Hit(all, sel, n, matches, inside)
    ensures KeepUnhit(rest, all, sel, matches, inside) == rest
    decreases |rest|
  {
    if |rest| > 0 {
      assert rest == [rest[0]] + rest[1..];
      KeepAllUnhit(rest[1..], all, sel, matches, inside);
    }
  }

  /** A document none of whose nodes the list hides comes out of the sweep unchanged. */
  lemma {:induction false} SweepKeepsUnhidden(nodes: seq<NodeId>, sels: seq<string>,
                                              matches: (string, NodeId) -> bool, inside: (NodeId, NodeId) -> bool)
    requires forall n :: n in nodes ==> !Hidden(nodes, sels, n, matches, inside)
    ensures Sweep(nodes, sels, matches, inside) == nodes
    decreases |sels|
  {
    if |sels| > 0 {
      forall n | Hit(nodes, sels[0], n, matches, inside)
        ensures Hidden(nodes, sels, n, matches, inside)
      {
        HitIsHidden(nodes, sels, n, matches, inside);
      }
      KeepAllUnhit(nodes, nodes, sels[0], matches, inside);
      forall n | Hidden(nodes, sels[1..], n, matches, inside)
        ensures Hidden(nodes, sels, n, matches, inside)
      {
        HiddenByTail(nodes, nodes, sels, n, matches, inside);
      }
      SweepKeepsUnhidden(nodes, sels[1..], matches, inside);
    }
  }

  /** When no selector matches any node, the page is left as it was, whatever the outcome. */
  lemma NothingToRemove(nodes: seq<NodeId>, paths: seq<string>,
                        matches: (string, NodeId) -> bool, inside: (NodeId, NodeId) -> bool,
                        valid: string -> bool)
    requires forall i, m :: 0 <= i < |paths| && m in nodes ==> !matches(paths[i], m)
    ensures RemoveNodes(nodes, paths, matches, inside, valid).doc == nodes
  {
    var r := RemoveNodes(nodes, paths, matches, inside, valid);
    var k := if r.Completed? then |paths| else r.at;
    assert k <= |paths|;
    forall n | n in nodes
      ensures !Hidden(nodes, paths[..k], n, matches, inside)
    {
      forall i, m | 0 <= i < k && m in nodes
        ensures !matches(paths[..k][i], m)
      {
        assert paths[..k][i] == paths[i];
      }
    }
    SweepKeepsUnhidden(nodes, paths[..k], matches, inside);
    if r.Completed? {
      assert paths[..k] == paths;
    }
  }

  /**
   * No node left by a sweep is reached by the list within what is left:
   * each selector removed everything it reached, and later selectors only
   * shrink the document.
   */
  lemma {:induction false} SweptAreUnhidden(nodes: seq<NodeId>, sels: seq<string>,
                                            matches: (string, NodeId) -> bool, inside: (NodeId, NodeId) -> bool)
    ensures forall n :: n in Sweep(nodes, sels, matches, inside) ==>
              !Hidden(Sweep(nodes, sels, matches, inside), sels, n, matches, inside)
    decreases |sels|
  {
    if |sels| > 0 {
      var next := RemoveMatching(nodes, sels[0], matches, inside);
      var once := Sweep(nodes, sels, matches, inside);
      assert once == Sweep(next, sels[1..], matches, inside);
      SweptAreUnhidden(next, sels[1..], matches, inside);
      forall n, i, m | n in once && 0 <= i < |sels| && m in once && (m == n || inside(n, m))
        ensures !matches(sels[i], m)
      {
        if i == 0 {
          assert m in nodes && n in next;
        } else {
          assert sels[1..][i - 1] == sels[i];
        }
      }
    }
  }

  /** A sweep repeated over its own result changes nothing more. */
  lemma SweepIdempotent(nodes: seq<NodeId>, sels: seq<string>,
                        matches: (string, NodeId) -> bool, inside: (NodeId, NodeId) -> bool)
    ensures var once := Sweep(nodes, sels, matches, inside);
            Sweep(once, sels, matches, inside) == once
  {
    var once := Sweep(nodes, sels, matches, inside);
    SweptAreUnhidden(nodes, sels, matches, inside);
    SweepKeepsUnhidden(once, sels, matches, inside);
  }

  /**
   * Running the agent a second time with the same list (reopening the popup,
   * reloading with a saved list) removes nothing further and ends the same
   * way, even when an invalid selector stopped the first run.
   */
  lemma RemoveNodesIdempotent(nodes: seq<NodeId>, paths: seq<string>,
                              matches: (string, NodeId) -> bool, inside: (NodeId, NodeId) -> bool,
                              valid: string -> bool)
    ensures var once := RemoveNodes(nodes, paths, matches, inside, valid);
            RemoveNodes(once.doc, paths, matches, inside, valid) == once
  {
    var once := RemoveNodes(nodes, paths, matches, inside, valid);
    var k := if once.Completed? then |paths| else once.at;
    SweepIdempotent(nodes, paths[..k], matches, inside);
    if once.Completed? {
      assert paths[..k] == paths;
    }
  }
}

=== FILE: popup.dfy ===
/**
 * The popup (`popup.js`): on opening it loads the list saved for the active
 * tab, shows it in the text field and applies it to the tab; the form's
 * submit parses the field, applies and saves the list; the clear button
 * deletes the saved list and empties the field.
 *
 * Each handler is a function from the state before it to the state after
 * it. Injecting the page agent into the tab with `var nodePaths = ...` and
 * then `index.js` is the agent's direct mode.
 */
module Popup {
  import opened Wrappers
  import opened Sequences
  import opened Text
  import opened Selectors
  import opened UrlKey
  import opened Storage
  import opened PageAgent

  /** The text field of the popup, the document of the active tab, and extension storage. */
  datatype Session = Session(field: string, page: seq<NodeId>, store: Store)

  /** `removeNodes(ids)` of the popup: run the page agent in the tab with the global `nodePaths` set to `ids`. */
  function Inject(page: seq<NodeId>, ids: seq<string>,
                  matches: (string, NodeId) -> bool, inside: (NodeId, NodeId) -> bool,
                  valid: string -> bool): (r: seq<NodeId>)
    ensures r == RemoveNodes(page, ids, matches, inside, valid).doc
    ensures IsSubsequence(r, page)
    ensures (forall i :: 0 <= i < |ids| ==> valid(ids[i])) ==> r == Sweep(page, ids, matches, inside)
    ensures ids == [] ==> r == page
  {
    PageAgent.Main(Some(ids), "", Store(map[], false), page, matches, inside, valid).doc
  }

  /**
   * The `DOMContentLoaded` handler's first step: load the list saved under
   * the tab's key; when the value is truthy, show it joined by ", " and
   * apply it to the tab. A failed read or a record without `nodePaths`
   * leaves everything as it was.
   */
  function Open(url: string, s: Session,
                matches: (string, NodeId) -> bool, inside: (NodeId, NodeId) -> bool,
                valid: string -> bool): (r: Session)
    ensures r.store == s.store
    ensures IsSubsequence(r.page, s.page)
    ensures !IsTruthy(Load(s.store, StorageKey(url))) ==> r == s
    ensures var v := Load(s.store, StorageKey(url));
            IsTruthy(v) ==> r.field == Display(v.paths) && r.page == RemoveNodes(s.page, v.paths, matches, inside, valid).doc
    ensures var key := StorageKey(url);
            !s.store.lastError && key in s.store.items && s.store.items[key].nodePaths.Some?
            && AllEntries(s.store.items[key].nodePaths.value)
            ==> ParseSelectors(r.field) == s.store.items[key].nodePaths.value
    ensures !s.store.lastError && StorageKey(url) !in s.store.items ==> r.field == "" && r.page == s.page
  {
    var loaded := Load(s.store, StorageKey(url));
    if IsTruthy(loaded) then
      var shown := Display(loaded.paths);
      assert AllEntries(loaded.paths) ==> ParseSelectors(shown) == loaded.paths by {
        if AllEntries(loaded.paths) {
          ParseDisplayRoundTrip(loaded.paths);
        }
      }
      Session(shown, Inject(s.page, loaded.paths, matches, inside, valid), s.store)
    else
      SubsequenceRefl(s.page);
      s
  }

  /**
   * The form's submit handler: parse the field, apply the list to the tab,
   * then save it under the tab's key. The field keeps the text as typed.
   */
  function Submit(url: string, s: Session,
                  matches: (string, NodeId) -> bool, inside: (NodeId, NodeId) -> bool,
                  valid: string -> bool): (r: Session)
    ensures r.field == s.field
    ensures r.page == RemoveNodes(s.page, ParseSelectors(s.field), matches, inside, valid).doc
    ensures !s.store.lastError ==> Load(r.store, StorageKey(url)) == Paths(ParseSelectors(s.field))
    ensures IsSubsequence(r.page, s.page)
    ensures r.store.lastError == s.store.lastError
    ensures r.store.items.Keys == s.store.items.Keys + {StorageKey(url)}
    ensures var key := StorageKey(url);
            StorageKey(url) in r.store.items && r.store.items[key].nodePaths.Some?
            && AllEntries(r.store.items[key].nodePaths.value)
    ensures forall k :: k != StorageKey(url) ==> Load(r.store, k) == Load(s.store, k)
    ensures AllWhitespace(s.field) ==> r.page == s.page
  {
    var paths := ParseSelectors(s.field);
    Session(s.field, Inject(s.page, paths, matches, inside, valid), Save(s.store, StorageKey(url), paths))
  }

  /**
   * The clear button: `clearStorage` calls its callback while building the
   * arguments of `remove`, so the field is emptied at once, whatever the
   * removal's result. Nodes already removed from the tab stay removed.
   */
  function ClearClick(url: string, s: Session): (r: Session)
    ensures r.field == "" && ParseSelectors(r.field) == []
    ensures r.page == s.page
    ensures StorageKey(url) !in r.store.items
    ensures forall k :: k != StorageKey(url) ==> Load(r.store, k) == Load(s.store, k)
  {
    assert AllWhitespace("");
    Session("", s.page, Remove(s.store, StorageKey(url)))
  }

  /**
   * When the host reports no error, reopening the popup after a submit shows
   * the submitted list, which parses back to that same list, and applying it
   * again leaves the tab as the submit left it.
   */
  lemma SubmitThenReopen(url: string, s: Session,
                         matches: (string, NodeId) -> bool, inside: (NodeId, NodeId) -> bool,
                         valid: string -> bool)
    requires !s.store.lastError
    ensures var submitted := Submit(url, s, matches, inside, valid);
            var reopened := Open(url, submitted, matches, inside, valid);
            && reopened.field == Display(ParseSelectors(s.field))
            && ParseSelectors(reopened.field) == ParseSelectors(s.field)
            && reopened.page == submitted.page
            && reopened.store == submitted.store
  {
    var paths := ParseSelectors(s.field);
    var submitted := Submit(url, s, matches, inside, valid);
    assert Load(submitted.store, StorageKey(url)) == Paths(paths);
    var once := RemoveNodes(s.page, paths, matches, inside, valid);
    RemoveNodesIdempotent(s.page, paths, matches, inside, valid);
    assert submitted.page == once.doc;
    ReparseDisplayed(s.field);
  }

  /**
   * When the host reports no error, a later visit to the page whose origin is
   * the key the popup saved under does, by itself, what the submit did to the
   * tab; in a tree, when every selector is valid, it removes exactly the nodes
   * that a parsed selector matches or sits below a match of.
   */
  lemma SubmitThenPageLoad(url: string, origin: string, s: Session, visit: seq<NodeId>,
                           matches: (string, NodeId) -> bool, inside: (NodeId, NodeId) -> bool,
                           valid: string -> bool)
    requires !s.store.lastError && StorageKey(url) == origin && Transitive(inside)
    ensures var submitted := Submit(url, s, matches, inside, valid);
            var paths := ParseSelectors(s.field);
            var r := PageAgent.Main(None, origin, submitted.store, visit, matches, inside, valid);
            && r == PageAgent.Main(Some(paths), origin, submitted.store, visit, matches, inside, valid)
            && ((forall i :: 0 <= i < |paths| ==> valid(paths[i])) ==>
                  forall n :: n in r.doc <==> n in visit && !Hidden(visit, paths, n, matches, inside))
  {
    SweepRemovesHidden(visit, ParseSelectors(s.field), matches, inside);
  }

  /**
   * After a clear, reopening the popup shows an empty field and changes
   * nothing in the tab, and a later visit to the page removes nothing.
   */
  lemma ClearThenReopen(url: string, s: Session, visit: seq<NodeId>,
                        matches: (string, NodeId) -> bool, inside: (NodeId, NodeId) -> bool,
                        valid: string -> bool)
    ensures var cleared := ClearClick(url, s);
            var reopened := Open(url, cleared, matches, inside, valid);
            && reopened.field == ""
            && reopened.page == s.page
            && PageAgent.Main(None, StorageKey(url), cleared.store, visit, matches, inside, valid) == Completed(visit)
  {
  }

  /**
   * When the key the popup saves under differs from a page's origin (a port,
   * a URL without ".com", a ".com" later in the path), and nothing was saved
   * under that origin, the page never finds the list on its own: the
   * autonomous run removes nothing.
   */
  lemma KeyMismatchLosesList(url: string, origin: string, s: Session, visit: seq<NodeId>,
                             matches: (string, NodeId) -> bool, inside: (NodeId, NodeId) -> bool,
                             valid: string -> bool)
    requires origin !in s.store.items && origin != StorageKey(url)
    ensures var submitted := Submit(url, s, matches, inside, valid);
            PageAgent.Main(None, origin, submitted.store, visit, matches, inside, valid) == Completed(visit)
  {
  }
}

=== FILE: selectors.dfy ===
/**
 * The popup's text field <-> selector list conversion: the submit handler
 * parses with trim / split(',') / trim / drop-empty, and the load handler
 * shows a saved list as its ", "-join.
 */
module Selectors {
  import opened Text
  import opened Sequences

  /** An entry the parser can produce: non-empty, trimmed, comma-free. */
  predicate IsEntry(p: string) {
    p != "" && IsTrimmed(p) && ',' !in p
  }

  predicate AllEntries(paths: seq<string>) {
    forall i :: 0 <= i < |paths| ==> IsEntry(paths[i])
  }

  /** `parts.map((path) => path.trim())` */
  function TrimEach(parts: seq<string>): (r: seq<string>)
    ensures |r| == |parts|
    ensures forall i :: 0 <= i < |r| ==> r[i] == Trim(parts[i])
    decreases |parts|
  {
    if |parts| == 0 then [] else [Trim(parts[0])] + TrimEach(parts[1..])
  }

  /** `parts.filter(id => id !== '')`: the non-empty parts, in their order, each as often as it occurs. */
  function DropEmpty(parts: seq<string>): (r: seq<string>)
    ensures forall i :: 0 <= i < |r| ==> r[i] != ""
    ensures forall p :: p in r <==> p in parts && p != ""
    ensures IsSubsequence(r, parts)
    decreases |parts|
  {
    if |parts| == 0 then []
    else
      var rest := DropEmpty(parts[1..]);
      assert forall p :: p in parts <==> p == parts[0] || p in parts[1..];
      if parts[0] == "" then rest
      else
        var r := [parts[0]] + rest;
        assert r[1..] == rest;
        r
  }

  /** The filter keeps each non-empty part exactly as often as it occurs, and no empty one. */
  lemma {:induction false} DropEmptyCounts(parts: seq<string>)
    ensures multiset(DropEmpty(parts)) == multiset(parts)["" := 0]
    decreases |parts|
  {
    if |parts| > 0 {
      DropEmptyCounts(parts[1..]);
      assert parts == [parts[0]] + parts[1..];
      assert multiset(parts) == multiset{parts[0]} + multiset(parts[1..]);
      if parts[0] != "" {
        assert DropEmpty(parts) == [parts[0]] + DropEmpty(parts[1..]);
      }
    }
  }

  /** The trim of a comma-free string is comma-free. */
  lemma TrimKeepsCommaFree(s: string)
    requires ',' !in s
    ensures ',' !in Trim(s)
  {
    var i := TrimShape(s);
  }

  /** Trimming comma-free segments and dropping the empty ones leaves only entries. */
  lemma CleanedAreEntries(segments: seq<string>)
    requires forall i :: 0 <= i < |segments| ==> ',' !in segments[i]
    ensures AllEntries(DropEmpty(TrimEach(segments)))
  {
    var trimmed := TrimEach(segments);
    var paths := DropEmpty(trimmed);
    assert forall p :: p in paths ==> p in trimmed && p != "";
    forall i | 0 <= i < |paths|
      ensures IsEntry(paths[i])
    {
      assert paths[i] in paths;
      var j :| 0 <= j < |trimmed| && trimmed[j] == paths[i];
      TrimKeepsCommaFree(segments[j]);
    }
  }

  /** Entries are exactly the strings `trim` leaves alone. */
  lemma EntriesAreTrimFixed(paths: seq<string>)
    requires AllEntries(paths)
    ensures forall i :: 0 <= i < |paths| ==> Trim(paths[i]) == paths[i]
  {
    forall i | 0 <= i < |paths|
      ensures Trim(paths[i]) == paths[i]
    {
      TrimmedIsFixed(paths[i]);
    }
  }

  /** Blank text has one empty segment, which the filter drops. */
  lemma BlankParsesEmpty(text: string)
    requires AllWhitespace(text)
    ensures DropEmpty(TrimEach(Split(Trim(text), ','))) == []
  {
    TrimBlank(text);
    assert Split("", ',') == [""];
    assert TrimEach([""]) == [Trim("")];
    TrimBlank("");
  }

  /** The submit handler's parse of the input text. */
  function ParseSelectors(text: string): (paths: seq<string>)
    ensures AllEntries(paths)
    ensures forall i :: 0 <= i < |paths| ==> Trim(paths[i]) == paths[i]
    ensures AllWhitespace(text) ==> paths == []
  {
    var segments := Split(Trim(text), ',');
    var paths := DropEmpty(TrimEach(segments));
    CleanedAreEntries(segments);
    EntriesAreTrimFixed(paths);
    if AllWhitespace(text) then BlankParsesEmpty(text); paths else paths
  }

  /**
   * The text the load handler puts in the field: `paths.join(', ')`, the
   * paths with two characters between neighbours.
   */
  function Display(paths: seq<string>): (r: string)
    ensures paths == [] ==> r == ""
    ensures paths != [] ==> |r| == TotalLength(paths) + 2 * (|paths| - 1)
  {
    Join(paths, ", ")
  }

  lemma DisplayCons(x: string, rest: seq<string>)
    requires |rest| >= 1
    ensures Display([x] + rest) == x + ", " + Display(rest)
  {
    assert ([x] + rest)[1..] == rest;
  }

  /** The pieces of a display, one path at a time: the first bare, every later one behind a space. */
  lemma SpacedPieces(paths: seq<string>, q: seq<string>, t: seq<string>)
    requires |paths| >= 2 && |q| == |paths| - 1 && q[0] == paths[1]
    requires forall i :: 1 <= i < |q| ==> q[i] == " " + paths[i + 1]
    requires t == [paths[0]] + ([" " + q[0]] + q[1..])
    ensures |t| == |paths| && t[0] == paths[0]
    ensures forall i :: 1 <= i < |paths| ==> t[i] == " " + paths[i]
  {
    forall i | 2 <= i < |paths|
      ensures t[i] == " " + paths[i]
    {
      assert t[i] == q[i - 1];
    }
  }

  /**
   * The displayed text of comma-free paths splits at its commas into the
   * first path and then each later path behind the one space of ", ".
   */
  lemma {:induction false} DisplaySplits(paths: seq<string>)
    requires |paths| >= 1
    requires forall i :: 0 <= i < |paths| ==> ',' !in paths[i]
    ensures |Split(Display(paths), ',')| == |paths|
    ensures Split(Display(paths), ',')[0] == paths[0]
    ensures forall i :: 1 <= i < |paths| ==> Split(Display(paths), ',')[i] == " " + paths[i]
    decreases |paths|
  {
    if |paths| == 1 {
      assert Split(paths[0], ',') == [paths[0]];
    } else {
      var rest := paths[1..];
      var tail := Display(rest);
      var q := Split(tail, ',');
      assert Display(paths) == paths[0] + [','] + (" " + tail) by {
        assert paths == [paths[0]] + rest;
        DisplayCons(paths[0], rest);
      }
      assert Split(Display(paths), ',') == [paths[0]] + ([" " + q[0]] + q[1..]) by {
        SplitCons(paths[0], ',', " " + tail);
        SplitPrefixed(" ", tail, ',');
      }
      DisplaySplits(rest);
      SpacedPieces(paths, q, Split(Display(paths), ','));
    }
  }

  lemma TrimEachCons(x: string, rest: seq<string>)
    ensures TrimEach([x] + rest) == [Trim(x)] + TrimEach(rest)
  {
    assert ([x] + rest)[1..] == rest;
  }

  lemma RegroupDisplay(w: string, x: string, d: string)
    ensures w + (x + ", " + d) == (w + x) + [','] + (" " + d)
  {
  }

  lemma EntriesTail(paths: seq<string>)
    requires |paths| >= 1 && AllEntries(paths)
    ensures AllEntries(paths[1..])
  {
    forall i | 0 <= i < |paths| - 1 ensures IsEntry(paths[1..][i]) {
      assert paths[1..][i] == paths[i + 1];
    }
  }

  lemma WhitespaceCommaFree(w: string)
    requires AllWhitespace(w)
    ensures ',' !in w
  {
  }

  /** With whitespace in front, the joined entries split into segments that trim back to the entries. */
  lemma {:induction false} SplitDisplayTrims(w: string, paths: seq<string>)
    requires AllWhitespace(w)
    requires |paths| >= 1 && AllEntries(paths)
    ensures TrimEach(Split(w + Display(paths), ',')) == paths
    decreases |paths|
  {
    var x := paths[0];
    assert IsEntry(x);
    WhitespaceCommaFree(w);
    assert ',' !in w + x;
    TrimUnpads(w, x, "");
    assert w + x + "" == w + x;
    if |paths| == 1 {
      assert w + Display(paths) == w + x;
      assert TrimEach([w + x]) == [Trim(w + x)];
    } else {
      var rest := paths[1..];
      assert paths == [x] + rest;
      DisplayCons(x, rest);
      RegroupDisplay(w, x, Display(rest));
      SplitCons(w + x, ',', " " + Display(rest));
      assert AllWhitespace(" ");
      EntriesTail(paths);
      SplitDisplayTrims(" ", rest);
      TrimEachCons(w + x, Split(" " + Display(rest), ','));
    }
  }

  /** Entries that are all non-empty pass through the filter unchanged. */
  lemma {:induction false} DropEmptyKeepsEntries(paths: seq<string>)
    requires forall i :: 0 <= i < |paths| ==> paths[i] != ""
    ensures DropEmpty(paths) == paths
    decreases |paths|
  {
    if |paths| > 0 {
      DropEmptyKeepsEntries(paths[1..]);
      assert [paths[0]] + paths[1..] == paths;
    }
  }

  /** The displayed text of a non-empty list starts with its first entry's first character and ends with its last entry's last character. */
  lemma {:induction false} DisplayEnds(paths: seq<string>)
    requires |paths| >= 1 && AllEntries(paths)
    ensures var d := Display(paths);
            |d| > 0 && d[0] == paths[0][0] && d[|d| - 1] == paths[|paths| - 1][|paths[|paths| - 1]| - 1]
    decreases |paths|
  {
    assert IsEntry(paths[0]);
    if |paths| > 1 {
      var rest := paths[1..];
      assert AllEntries(rest) by {
        forall i | 0 <= i < |rest| ensures IsEntry(rest[i]) {
          assert rest[i] == paths[i + 1];
        }
      }
      DisplayEnds(rest);
      assert Display(paths) == paths[0] + ", " + Display(rest);
    }
  }

  /** Showing a list of entries and parsing the shown text gives the list back. */
  lemma ParseDisplayRoundTrip(paths: seq<string>)
    requires AllEntries(paths)
    ensures ParseSelectors(Display(paths)) == paths
  {
    var d := Display(paths);
    if |paths| == 0 {
      assert d == "";
      TrimBlank(d);
      assert Split("", ',') == [""];
      assert TrimEach([""]) == [""];
    } else {
      DisplayEnds(paths);
      assert IsEntry(paths[0]) && IsEntry(paths[|paths| - 1]);
      assert IsTrimmed(d);
      TrimmedIsFixed(d);
      assert AllWhitespace("");
      SplitDisplayTrims("", paths);
      assert "" + d == d;
      DropEmptyKeepsEntries(paths);
    }
  }

  /** The field the popup shows after loading a parsed list re-parses to that same list. */
  lemma ReparseDisplayed(text: string)
    ensures ParseSelectors(Display(ParseSelectors(text))) == ParseSelectors(text)
  {
    ParseDisplayRoundTrip(ParseSelectors(text));
  }

  /** Padding the first piece in front and the last piece behind, index by index. */
  lemma PadShape(p: seq<string>, q: seq<string>, t: seq<string>, a: string, b: string, k: nat)
    requires k < |p|
    requires q == p[..|p| - 1] + [p[|p| - 1] + b]
    requires t == [a + q[0]] + q[1..]
    ensures |t| == |p|
    ensures t[k] == (if k == 0 then a else "") + p[k] + (if k == |p| - 1 then b else "")
  {
    var n := |p|;
    if k == 0 && n == 1 {
      assert t[0] == a + (p[0] + b);
    } else if k == 0 {
      assert t[0] == a + p[0] + "";
    } else if k == n - 1 {
      assert t[k] == q[k] == p[k] + b;
      assert t[k] == "" + p[k] + b;
    } else {
      assert t[k] == q[k] == p[k];
      assert t[k] == "" + p[k] + "";
    }
  }

  /** Padding the text pads the first and the last segment, and nothing else. */
  lemma SplitPadded(a: string, r: string, b: string, k: nat)
    requires ',' !in a && ',' !in b
    requires k < |Split(r, ',')|
    ensures |Split(a + r + b, ',')| == |Split(r, ',')|
    ensures var p := Split(r, ',');
            Split(a + r + b, ',')[k]
              == (if k == 0 then a else "") + p[k] + (if k == |p| - 1 then b else "")
  {
    var p := Split(r, ',');
    var q := Split(r + b, ',');
    var t := Split(a + r + b, ',');
    assert q == p[..|p| - 1] + [p[|p| - 1] + b] by {
      SplitSuffixed(r, b, ',');
    }
    assert t == [a + q[0]] + q[1..] by {
      assert a + r + b == a + (r + b);
      SplitPrefixed(a, r + b, ',');
    }
    PadShape(p, q, t, a, b, k);
  }


  /** Trimming segment-wise makes whitespace padding around the whole text irrelevant. */
  lemma PaddedSegmentsTrimAlike(a: string, r: string, b: string)
    requires AllWhitespace(a) && AllWhitespace(b)
    ensures TrimEach(Split(a + r + b, ',')) == TrimEach(Split(r, ','))
  {
    WhitespaceCommaFree(a);
    WhitespaceCommaFree(b);
    var p := Split(r, ',');
    var t := Split(a + r + b, ',');
    SplitPadded(a, r, b, 0);
    forall k | 0 <= k < |p|
      ensures Trim(t[k]) == Trim(p[k])
    {
      SplitPadded(a, r, b, k);
      var front := if k == 0 then a else "";
      var back := if k == |p| - 1 then b else "";
      TrimIgnoresPadding(front, p[k], back);
    }
  }

  /**
   * Parsing keeps, in order, the non-blank trimmed comma segments of the raw
   * text: the outer trim before splitting changes nothing.
   */
  lemma ParseIsCleanedSegments(text: string)
    ensures ParseSelectors(text) == DropEmpty(TrimEach(Split(text, ',')))
  {
    var r := Trim(text);
    var i := TrimShape(text);
    SliceThree(text, i, i + |r|);
    PaddedSegmentsTrimAlike(text[..i], r, text[i + |r|..]);
  }

  /** The example's text, cut at its commas. */
  lemma ShapeText(x: string, y: string, z: string)
    ensures x + ", " + y + " ,, " + z
         == x + [','] + ((" " + y + " ") + [','] + ("" + [','] + (" " + z)))
  {
  }

  lemma ShapeSegments(x: string, y: string, z: string)
    requires ',' !in x && ',' !in y && ',' !in z
    ensures Split(x + ", " + y + " ,, " + z, ',') == [x] + ([" " + y + " "] + ([""] + [" " + z]))
  {
    var tail2 := "" + [','] + (" " + z);
    var tail1 := (" " + y + " ") + [','] + tail2;
    ShapeText(x, y, z);
    assert Split(tail2, ',') == [""] + [" " + z] by {
      SplitCons("", ',', " " + z);
      assert Split(" " + z, ',') == [" " + z];
    }
    assert Split(tail1, ',') == [" " + y + " "] + ([""] + [" " + z]) by {
      SplitCons(" " + y + " ", ',', tail2);
    }
    SplitCons(x, ',', tail1);
  }

  lemma TrimEachConsTo(a: string, rest: seq<string>, r: string, rs: seq<string>)
    requires Trim(a) == r && TrimEach(rest) == rs
    ensures TrimEach([a] + rest) == [r] + rs
  {
    TrimEachCons(a, rest);
  }

  lemma ShapeTrims(x: string, y: string, z: string)
    requires IsEntry(x) && IsEntry(y) && IsEntry(z)
    ensures TrimEach([x] + ([" " + y + " "] + ([""] + [" " + z]))) == [x] + ([y] + ([""] + [z]))
  {
    var s1, s3 := " " + y + " ", " " + z;
    assert TrimEach([s3]) == [z] by {
      TrimUnpads(" ", z, "");
      assert " " + z + "" == s3;
      TrimEachConsTo(s3, [], z, []);
      assert [s3] + [] == [s3];
      assert [z] + [] == [z];
    }
    assert TrimEach([""] + [s3]) == [""] + [z] by {
      TrimBlank("");
      TrimEachConsTo("", [s3], "", [z]);
    }
    assert TrimEach([s1] + ([""] + [s3])) == [y] + ([""] + [z]) by {
      TrimUnpads(" ", y, " ");
      TrimEachConsTo(s1, [""] + [s3], y, [""] + [z]);
    }
    TrimmedIsFixed(x);
    TrimEachConsTo(x, [s1] + ([""] + [s3]), x, [y] + ([""] + [z]));
  }

  lemma DropEmptyCons(p: string, rest: seq<string>)
    ensures DropEmpty([p] + rest) == if p == "" then DropEmpty(rest) else [p] + DropEmpty(rest)
  {
    assert ([p] + rest)[1..] == rest;
  }

  lemma ShapeDrop(x: string, y: string, z: string)
    requires x != "" && y != "" && z != ""
    ensures DropEmpty([x] + ([y] + ([""] + [z]))) == [x] + ([y] + [z])
  {
    assert DropEmpty([z]) == [z] by { DropEmptyCons(z, []); assert [z] + [] == [z]; }
    DropEmptyCons("", [z]);
    DropEmptyCons(y, [""] + [z]);
    DropEmptyCons(x, [y] + ([""] + [z]));
  }

  /** The cleaned segments of the example's shape are its three entries. */
  lemma ShapeCleaned(x: string, y: string, z: string)
    requires IsEntry(x) && IsEntry(y) && IsEntry(z)
    ensures DropEmpty(TrimEach(Split(x + ", " + y + " ,, " + z, ','))) == [x, y, z]
  {
    var segments := [x] + ([" " + y + " "] + ([""] + [" " + z]));
    var trimmed := [x] + ([y] + ([""] + [z]));
    assert Split(x + ", " + y + " ,, " + z, ',') == segments by {
      ShapeSegments(x, y, z);
    }
    assert TrimEach(segments) == trimmed by {
      ShapeTrims(x, y, z);
    }
    assert DropEmpty(trimmed) == [x] + ([y] + [z]) by {
      ShapeDrop(x, y, z);
    }
    assert [x] + ([y] + [z]) == [x, y, z];
  }


  /**
   * The shape of an example field for the submit handler,
   * "div.ad, #banner ,, .tracker": padding around entries and a blank
   * segment between commas disappear, and the entries keep their order.
   */
  lemma ParsePaddedWithBlank(x: string, y: string, z: string)
    requires IsEntry(x) && IsEntry(y) && IsEntry(z)
    ensures ParseSelectors(x + ", " + y + " ,, " + z) == [x, y, z]
  {
    var text := x + ", " + y + " ,, " + z;
    ShapeCleaned(x, y, z);
    ParseIsCleanedSegments(text);
  }

  /** An example field for the submit handler. */
  lemma ParseExample()
    ensures ParseSelectors("div.ad, #banner ,, .tracker") == ["div.ad", "#banner", ".tracker"]
  {
    ExampleEntries();
    ParsePaddedWithBlank("div.ad", "#banner", ".tracker");
    ExampleText();
  }

  lemma ExampleEntries()
    ensures IsEntry("div.ad") && IsEntry("#banner") && IsEntry(".tracker")
  {
  }

  lemma ExampleText()
    ensures "div.ad" + ", " + "#banner" + " ,, " + ".tracker" == "div.ad, #banner ,, .tracker"
  {
  }
}

=== FILE: sequences.dfy ===
/** Order-preserving deletion, the one relation between sequences the model needs. */
module Sequences {

  /** `a` is obtained from `b` by deleting elements, keeping the order of the rest. */
  predicate IsSubsequence<T(==)>(a: seq<T>, b: seq<T>)
    decreases |b|
  {
    || |a| == 0
    || (&& |b| > 0
        && (|| (a[0] == b[0] && IsSubsequence(a[1..], b[1..]))
            || IsSubsequence(a, b[1..])))
  }

  lemma {:induction false} SubsequenceRefl<T>(a: seq<T>)
    ensures IsSubsequence(a, a)
    decreases |a|
  {
    if |a| > 0 {
      SubsequenceRefl(a[1..]);
    }
  }

  lemma {:induction false} SubsequenceTrans<T>(a: seq<T>, b: seq<T>, c: seq<T>)
    requires IsSubsequence(a, b) && IsSubsequence(b, c)
    ensures IsSubsequence(a, c)
    decreases |c|
  {
    if |a| > 0 && |c| > 0 {
      if |b| > 0 && a[0] == b[0] && IsSubsequence(a[1..], b[1..]) {
        if b[0] == c[0] && IsSubsequence(b[1..], c[1..]) {
          SubsequenceTrans(a[1..], b[1..], c[1..]);
        } else {
          SubsequenceTrans(a, b, c[1..]);
        }
      } else if b[0] == c[0] && IsSubsequence(b[1..], c[1..]) {
        SubsequenceTrans(a, b[1..], c[1..]);
      } else {
        SubsequenceTrans(a, b, c[1..]);
      }
    }
  }
}

=== FILE: storage.dfy ===
/**
 * The per-key record store behind `getSavedNodePaths`, `saveNodePaths` and
 * `clearStorage`: synchronized extension storage seen as a map from key to
 * record, plus whether the host reports an error for the current call.
 */
module Storage {
  import opened Wrappers

  /** A stored value `{ nodePaths: [...] }`; the field may be missing. */
  datatype Record = Record(nodePaths: Option<seq<string>>)

  datatype Store = Store(items: map<string, Record>, lastError: bool)

  /** The value `getSavedNodePaths` passes to its callback. */
  datatype Loaded =
    | Paths(paths: seq<string>)  // an array, possibly empty
    | Undefined                  // the record exists but has no `nodePaths`
    | Null                       // the host reported an error

  /** JavaScript truthiness of the loaded value: every array, even `[]`, is truthy. */
  predicate IsTruthy(v: Loaded): (b: bool)
    ensures b <==> v != Null && v != Undefined
  {
    v.Paths?
  }

  /**
   * `getSavedNodePaths(key, cb)`: reading `items[key].nodePaths` throws a
   * TypeError when the record is missing, which is turned into `[]`; a host
   * error overrides whatever was read.
   */
  function Load(store: Store, key: string): (v: Loaded)
    ensures v == Null <==> store.lastError
    ensures !store.lastError && key !in store.items ==> v == Paths([])
    ensures v == Undefined <==> !store.lastError && key in store.items && store.items[key].nodePaths.None?
    ensures v.Paths? && key in store.items ==> store.items[key].nodePaths == Some(v.paths)
  {
    if store.lastError then Null
    else if key !in store.items then Paths([])
    else match store.items[key].nodePaths
      case Some(paths) => Paths(paths)
      case None => Undefined
  }

  /** `saveNodePaths(key, paths)`: overwrite one record with `{ nodePaths: paths }`. */
  function Save(store: Store, key: string, paths: seq<string>): (s: Store)
    ensures s.lastError == store.lastError
    ensures s.items.Keys == store.items.Keys + {key}
    ensures !store.lastError ==> Load(s, key) == Paths(paths)
    ensures forall k :: k in store.items && k != key ==> s.items[k] == store.items[k]
    ensures forall k :: k != key ==> Load(s, k) == Load(store, k)
  {
    store.(items := store.items[key := Record(Some(paths))])
  }

  /** `chrome.storage.sync.remove(key)`: drop one record. */
  function Remove(store: Store, key: string): (s: Store)
    ensures s.lastError == store.lastError
    ensures s.items.Keys == store.items.Keys - {key}
    ensures !store.lastError ==> Load(s, key) == Paths([])
    ensures forall k :: k in s.items ==> s.items[k] == store.items[k]
    ensures forall k :: k != key ==> Load(s, k) == Load(store, k)
  {
    store.(items := store.items - {key})
  }

  /** Saving twice under one key keeps only the second list. */
  lemma SaveOverwrites(store: Store, key: string, first: seq<string>, second: seq<string>)
    ensures Save(Save(store, key, first), key, second) == Save(store, key, second)
  {
  }

  /** Removing after saving forgets the save: the key is gone, others are as before the save. */
  lemma RemoveUndoesSave(store: Store, key: string, paths: seq<string>)
    ensures Remove(Save(store, key, paths), key) == Remove(store, key)
  {
  }
}

=== FILE: text.dfy ===
/**
 * The JavaScript string primitives the popup relies on:
 * `String.prototype.trim`, `String.prototype.split` with a one-character
 * separator and `Array.prototype.join`.
 */
module Text {

  /**
   * The code points `trim` strips: ECMAScript WhiteSpace (tab, vertical tab,
   * form feed, space, no-break space, the byte order mark and the other
   * Unicode space separators) and LineTerminator (line feed, carriage return,
   * line and paragraph separators).
   */
  const WhitespaceCodes: set<int> :=
    {0x09, 0x0A, 0x0B, 0x0C, 0x0D, 0x20, 0xA0, 0x1680,
     0x2000, 0x2001, 0x2002, 0x2003, 0x2004, 0x2005, 0x2006, 0x2007, 0x2008, 0x2009, 0x200A,
     0x2028, 0x2029, 0x202F, 0x205F, 0x3000, 0xFEFF}

  predicate IsWhitespace(c: char) {
    c as int in WhitespaceCodes
  }

  predicate AllWhitespace(s: string) {
    forall i :: 0 <= i < |s| ==> IsWhitespace(s[i])
  }

  /** Neither end of `s` is whitespace: `trim` has nothing left to strip. */
  predicate IsTrimmed(s: string) {
    |s| == 0 || (!IsWhitespace(s[0]) && !IsWhitespace(s[|s| - 1]))
  }

  /** Number of whitespace code points at the start of `s`. */
  function LeadingWhitespace(s: string): (n: nat)
    ensures n <= |s|
    ensures forall k :: 0 <= k < n ==> IsWhitespace(s[k])
    ensures n == |s| || !IsWhitespace(s[n])
    decreases |s|
  {
    if |s| > 0 && IsWhitespace(s[0]) then 1 + LeadingWhitespace(s[1..]) else 0
  }

  /** Length of `s` once whitespace at its end is dropped. */
  function TrailingCut(s: string): (n: nat)
    ensures n <= |s|
    ensures forall k :: n <= k < |s| ==> IsWhitespace(s[k])
    ensures n == 0 || !IsWhitespace(s[n - 1])
    decreases |s|
  {
    if |s| > 0 && IsWhitespace(s[|s| - 1]) then TrailingCut(s[..|s| - 1]) else |s|
  }

  /** `s.trim()`: strips whitespace from both ends. */
  function Trim(s: string): (r: string)
    ensures |r| <= |s| && IsTrimmed(r)
  {
    var t := s[LeadingWhitespace(s)..];
    t[..TrailingCut(t)]
  }

  /** What `trim` keeps is the infix left between a whitespace prefix and a whitespace suffix. */
  lemma TrimShape(s: string) returns (i: nat)
    ensures i + |Trim(s)| <= |s| && Trim(s) == s[i..i + |Trim(s)|]
    ensures AllWhitespace(s[..i]) && AllWhitespace(s[i + |Trim(s)|..])
  {
    i := LeadingWhitespace(s);
    var t := s[i..];
    var n := TrailingCut(t);
    assert Trim(s) == s[i..i + n];
    var back := s[i + n..];
    assert AllWhitespace(back) by {
      forall k | 0 <= k < |back| ensures IsWhitespace(back[k]) {
        assert back[k] == t[n + k];
      }
    }
  }

  lemma {:induction false} LeadingSkips(a: string, t: string)
    requires AllWhitespace(a)
    requires |t| == 0 || !IsWhitespace(t[0])
    ensures LeadingWhitespace(a + t) == |a|
    decreases |a|
  {
    if |a| > 0 {
      assert (a + t)[1..] == a[1..] + t;
      LeadingSkips(a[1..], t);
    } else {
      assert a + t == t;
    }
  }

  lemma {:induction false} TrailingSkips(t: string, b: string)
    requires AllWhitespace(b)
    requires |t| == 0 || !IsWhitespace(t[|t| - 1])
    ensures TrailingCut(t + b) == |t|
    decreases |b|
  {
    if |b| > 0 {
      assert (t + b)[..|t + b| - 1] == t + b[..|b| - 1];
      TrailingSkips(t, b[..|b| - 1]);
    } else {
      assert t + b == t;
    }
  }

  /** `trim` removes exactly the whitespace padding around a trimmed core. */
  lemma TrimUnpads(a: string, x: string, b: string)
    requires AllWhitespace(a) && IsTrimmed(x) && AllWhitespace(b)
    ensures Trim(a + x + b) == x
  {
    var s := a + x + b;
    if |x| == 0 {
      assert s == a + b;
      assert AllWhitespace(s);
      var i := LeadingWhitespace(s);
      assert i == |s|;
    } else {
      assert s == a + (x + b);
      LeadingSkips(a, x + b);
      assert s[|a|..] == x + b;
      TrailingSkips(x, b);
      assert (x + b)[..|x|] == x;
    }
  }

  /** A trimmed string is a fixed point of `trim`. */
  lemma TrimmedIsFixed(x: string)
    requires IsTrimmed(x)
    ensures Trim(x) == x
  {
    TrimUnpads("", x, "");
    assert "" + x + "" == x;
  }

  /** `trim` is idempotent. */
  lemma TrimIdempotent(s: string)
    ensures Trim(Trim(s)) == Trim(s)
  {
    TrimmedIsFixed(Trim(s));
  }

  lemma SliceThree(s: string, i: nat, j: nat)
    requires i <= j <= |s|
    ensures s == s[..i] + s[i..j] + s[j..]
  {
  }

  lemma Regroup(a: string, f: string, r: string, k: string, b: string)
    ensures a + (f + r + k) + b == (a + f) + r + (k + b)
  {
  }

  lemma WhitespaceConcat(a: string, b: string)
    requires AllWhitespace(a) && AllWhitespace(b)
    ensures AllWhitespace(a + b)
  {
  }

  /** Extra whitespace around a string does not change its trim. */
  lemma TrimIgnoresPadding(a: string, s: string, b: string)
    requires AllWhitespace(a) && AllWhitespace(b)
    ensures Trim(a + s + b) == Trim(s)
  {
    var r := Trim(s);
    var i := TrimShape(s);
    var front, back := s[..i], s[i + |r|..];
    SliceThree(s, i, i + |r|);
    Regroup(a, front, r, back, b);
    WhitespaceConcat(a, front);
    WhitespaceConcat(back, b);
    TrimUnpads(a + front, r, back + b);
  }

  /** Whitespace-only text trims to the empty string. */
  lemma TrimBlank(s: string)
    requires AllWhitespace(s)
    ensures Trim(s) == ""
  {
    TrimUnpads(s, "", "");
    assert s + "" + "" == s;
  }

  /** `s.indexOf(c)` for a character known to occur. */
  function IndexOf(s: string, c: char): (i: nat)
    requires c in s
    ensures i < |s| && s[i] == c && c !in s[..i]
  {
    if s[0] == c then 0 else 1 + IndexOf(s[1..], c)
  }

  /** The number of characters in all the parts together. */
  function TotalLength(parts: seq<string>): nat
    decreases |parts|
  {
    if |parts| == 0 then 0 else |parts[0]| + TotalLength(parts[1..])
  }

  /** `parts.join(sep)`: the parts in order, with one separator between neighbours. */
  function Join(parts: seq<string>, sep: string): (r: string)
    ensures |parts| == 0 ==> r == ""
    ensures |parts| > 0 ==> |r| == TotalLength(parts) + (|parts| - 1) * |sep|
    decreases |parts|
  {
    if |parts| == 0 then ""
    else if |parts| == 1 then parts[0]
    else parts[0] + sep + Join(parts[1..], sep)
  }

  /** `s.split(sep)` for a one-character separator: every segment between separators, empty ones included. */
  function Split(s: string, sep: char): (parts: seq<string>)
    ensures |parts| >= 1
    ensures forall i :: 0 <= i < |parts| ==> sep !in parts[i]
    decreases |s|
  {
    if sep !in s then [s]
    else
      var i := IndexOf(s, sep);
      [s[..i]] + Split(s[i + 1..], sep)
  }

  /** Joining the segments with the separator gives back the text: `split` loses nothing. */
  lemma {:induction false} JoinSplit(s: string, sep: char)
    ensures Join(Split(s, sep), [sep]) == s
    decreases |s|
  {
    if sep in s {
      var i := IndexOf(s, sep);
      var head, tail := s[..i], s[i + 1..];
      var rest := Split(tail, sep);
      var parts := Split(s, sep);
      assert parts == [head] + rest;
      assert Join(parts, [sep]) == head + [sep] + Join(rest, [sep]) by {
        assert parts[0] == head && parts[1..] == rest && |parts| > 1;
      }
      JoinSplit(tail, sep);
      assert s == head + [sep] + tail;
    }
  }

  /** The first separator of `x + [sep] + y` is the one after `x`. */
  lemma {:induction false} IndexOfAfter(x: string, sep: char, y: string)
    requires sep !in x
    ensures IndexOf(x + [sep] + y, sep) == |x|
    decreases |x|
  {
    if |x| > 0 {
      assert (x + [sep] + y)[1..] == x[1..] + [sep] + y;
      IndexOfAfter(x[1..], sep, y);
    }
  }

  /** Splitting peels off the text before the first separator. */
  lemma SplitCons(x: string, sep: char, y: string)
    requires sep !in x
    ensures Split(x + [sep] + y, sep) == [x] + Split(y, sep)
  {
    var s := x + [sep] + y;
    assert s[|x|] == sep;
    IndexOfAfter(x, sep, y);
    assert s[..|x|] == x;
    assert s[|x| + 1..] == y;
  }

  /** A separator-free prefix joins the first segment. */
  lemma SplitPrefixed(a: string, s: string, sep: char)
    requires sep !in a
    ensures Split(a + s, sep) == [a + Split(s, sep)[0]] + Split(s, sep)[1..]
  {
    if sep in s {
      var i := IndexOf(s, sep);
      assert s == s[..i] + [sep] + s[i + 1..];
      assert a + s == (a + s[..i]) + [sep] + s[i + 1..];
      assert sep !in a + s[..i];
      SplitCons(a + s[..i], sep, s[i + 1..]);
      SplitCons(s[..i], sep, s[i + 1..]);
    } else {
      assert sep !in a + s;
    }
  }

  /** Appending to the last piece commutes with putting a piece in front. */
  lemma ExtendLast(head: string, q: seq<string>, b: string)
    requires |q| >= 1
    ensures var p := [head] + q;
            [head] + (q[..|q| - 1] + [q[|q| - 1] + b]) == p[..|p| - 1] + [p[|p| - 1] + b]
  {
    var p := [head] + q;
    assert p[..|p| - 1] == [head] + q[..|q| - 1];
  }

  /** A separator-free suffix joins the last segment. */
  lemma {:induction false} SplitSuffixed(s: string, b: string, sep: char)
    requires sep !in b
    ensures var p := Split(s, sep);
            Split(s + b, sep) == p[..|p| - 1] + [p[|p| - 1] + b]
    decreases |s|
  {
    if sep in s {
      var i := IndexOf(s, sep);
      var head, rest := s[..i], s[i + 1..];
      var q := Split(rest, sep);
      assert Split(s, sep) == [head] + q by {
        assert s == head + [sep] + rest;
        SplitCons(head, sep, rest);
      }
      assert Split(s + b, sep) == [head] + Split(rest + b, sep) by {
        assert s + b == head + [sep] + (rest + b);
        SplitCons(head, sep, rest + b);
      }
      SplitSuffixed(rest, b, sep);
      ExtendLast(head, q, b);
    } else {
      assert sep !in s + b;
    }
  }

  /** Splitting a join of separator-free parts gives the parts back: `join` loses nothing either. */
  lemma {:induction false} SplitJoin(parts: seq<string>, sep: char)
    requires |parts| >= 1
    requires forall i :: 0 <= i < |parts| ==> sep !in parts[i]
    ensures Split(Join(parts, [sep]), sep) == parts
    decreases |parts|
  {
    if |parts| == 1 {
      assert Split(parts[0], sep) == [parts[0]];
    } else {
      var rest := parts[1..];
      assert Join(parts, [sep]) == parts[0] + [sep] + Join(rest, [sep]);
      SplitCons(parts[0], sep, Join(rest, [sep]));
      SplitJoin(rest, sep);
      assert parts == [parts[0]] + rest;
    }
  }
}

=== FILE: urlkey.dfy ===
/**
 * The popup's storage key: `url.match(/.+\.com/)`, falling back to the
 * whole URL when there is no match.
 *
 * The regular expression is modelled by what the engine returns: of all the
 * substrings `s[p..q+4]` that `.+\.com` can match (at least one character that
 * is not a line terminator, then the literal ".com"), the one with the
 * leftmost start `p`, and for that start the longest, because `.+` is greedy
 * and backtracks only as far as needed.
 */
module UrlKey {
  import opened Wrappers

  /** The characters `.` refuses in a JavaScript regular expression without the `s` flag. */
  predicate IsLineTerminator(c: char) {
    c == '\n' || c == '\r' || c as int == 0x2028 || c as int == 0x2029
  }

  predicate NoLineTerminator(s: string) {
    forall k :: 0 <= k < |s| ==> !IsLineTerminator(s[k])
  }

  /** The literal ".com" starts at index `q` of `s`. */
  predicate ComAt(s: string, q: int) {
    0 <= q && q + 4 <= |s| && s[q] == '.' && s[q + 1] == 'c' && s[q + 2] == 'o' && s[q + 3] == 'm'
  }

  /** `.+\.com` can match `s[p..q+4]`: `.+` takes `s[p..q]`, `\.com` takes `s[q..q+4]`. */
  predicate MatchAt(s: string, p: int, q: int) {
    0 <= p < q && ComAt(s, q) && forall k :: p <= k < q ==> !IsLineTerminator(s[k])
  }

  /** The match the engine reports: leftmost start, then longest. */
  ghost predicate IsFirstMatch(s: string, p: int, q: int) {
    && MatchAt(s, p, q)
    && forall p', q' :: MatchAt(s, p', q') ==> p < p' || (p == p' && q' <= q)
  }

  /** `q` is the last ".com" of `s` that does not start at index 0. */
  ghost predicate IsLastCom(s: string, q: int) {
    1 <= q && ComAt(s, q) && forall j :: q < j ==> !ComAt(s, j)
  }

  /** The end of the line that starts at `p`: the next line terminator, or the end of `s`. */
  function LineEnd(s: string, p: nat): (e: nat)
    requires p <= |s|
    ensures p <= e <= |s|
    ensures forall k :: p <= k < e ==> !IsLineTerminator(s[k])
    ensures e == |s| || IsLineTerminator(s[e])
    decreases |s| - p
  {
    if p == |s| || IsLineTerminator(s[p]) then p else LineEnd(s, p + 1)
  }

  /** The largest `j` with `lo < j <= q` at which ".com" starts, if any. */
  function LastComAfter(s: string, lo: int, q: int): (r: Option<nat>)
    ensures r.Some? ==> lo < r.value <= q && ComAt(s, r.value)
    ensures forall j :: lo < j <= q && ComAt(s, j) ==> r.Some? && j <= r.value
    decreases q - lo
  {
    if q <= lo then None
    else if ComAt(s, q) then Some(q)
    else LastComAfter(s, lo, q - 1)
  }

  /** A match that starts on the line `[p, e)` stays on it, ".com" included. */
  lemma MatchStaysInLine(s: string, p: nat, e: nat, p': int, q': int)
    requires p <= e <= |s|
    requires forall k :: p <= k < e ==> !IsLineTerminator(s[k])
    requires e == |s| || IsLineTerminator(s[e])
    requires MatchAt(s, p', q') && p <= p' <= e
    ensures p' < e && q' + 4 <= e
  {
  }

  /** Scanning line by line from `p`, where no earlier start can match. */
  function MatchFrom(s: string, p: nat): (r: Option<(nat, nat)>)
    requires p <= |s|
    requires forall p', q' :: MatchAt(s, p', q') ==> p <= p'
    ensures r.None? ==> forall p', q' :: !MatchAt(s, p', q')
    ensures r.Some? ==> IsFirstMatch(s, r.value.0, r.value.1)
    decreases |s| - p
  {
    var e := LineEnd(s, p);
    match LastComAfter(s, p, e - 4)
    case Some(q) =>
      assert forall p', q' :: MatchAt(s, p', q') ==> p < p' || (p == p' && q' <= q) by {
        forall p', q' | MatchAt(s, p', q') && p == p'
          ensures q' <= q
        {
          MatchStaysInLine(s, p, e, p', q');
        }
      }
      Some((p, q))
    case None =>
      assert forall p', q' :: MatchAt(s, p', q') ==> e < p' by {
        forall p', q' | MatchAt(s, p', q') && p' <= e
          ensures false
        {
          MatchStaysInLine(s, p, e, p', q');
        }
      }
      if e == |s| then None else MatchFrom(s, e + 1)
  }

  /** `s.match(/.+\.com/)`: `null` as `None`, otherwise the matched text `matches[0]`. */
  function MatchDotCom(s: string): (r: Option<string>)
    ensures r.None? <==> forall p, q :: !MatchAt(s, p, q)
    ensures r.Some? ==> exists p, q :: IsFirstMatch(s, p, q) && r.value == s[p..q + 4]
  {
    match MatchFrom(s, 0)
    case None => None
    case Some((p, q)) => Some(s[p..q + 4])
  }

  /** The engine's choice is unique. */
  lemma FirstMatchUnique(s: string, p: int, q: int, p': int, q': int)
    requires IsFirstMatch(s, p, q) && IsFirstMatch(s, p', q')
    ensures p == p' && q == q'
  {
  }

  /** Without line terminators every match can be stretched back to index 0. */
  lemma FirstMatchOfSingleLine(s: string, q: int)
    requires NoLineTerminator(s)
    requires IsLastCom(s, q)
    ensures IsFirstMatch(s, 0, q)
  {
    forall p', q' | MatchAt(s, p', q')
      ensures 0 < p' || (0 == p' && q' <= q)
    {
      assert 1 <= q';
    }
  }

  /**
   * The key `getCurrentTabUrl` hands on: the regular expression's match, or
   * the whole URL when it does not match.
   */
  function StorageKey(url: string): (key: string)
    ensures (forall p, q :: !MatchAt(url, p, q)) ==> key == url
    ensures forall p, q :: IsFirstMatch(url, p, q) ==> key == url[p..q + 4]
    ensures NoLineTerminator(url) ==> forall q :: IsLastCom(url, q) ==> key == url[..q + 4]
    ensures NoLineTerminator(url) && (forall q :: 1 <= q ==> !ComAt(url, q)) ==> key == url
  {
    match MatchDotCom(url)
    case None => url
    case Some(m) =>
      assert forall p, q :: IsFirstMatch(url, p, q) ==> m == url[p..q + 4] by {
        var p0, q0 :| IsFirstMatch(url, p0, q0) && m == url[p0..q0 + 4];
        forall p, q | IsFirstMatch(url, p, q) ensures m == url[p..q + 4] {
          FirstMatchUnique(url, p, q, p0, q0);
        }
      }
      assert NoLineTerminator(url) ==> forall q :: IsLastCom(url, q) ==> m == url[..q + 4] by {
        if NoLineTerminator(url) {
          forall q | IsLastCom(url, q) ensures m == url[..q + 4] {
            FirstMatchOfSingleLine(url, q);
          }
        }
      }
      assert NoLineTerminator(url) ==> exists q :: 1 <= q && ComAt(url, q) by {
        var p0, q0 :| IsFirstMatch(url, p0, q0) && m == url[p0..q0 + 4];
        assert 1 <= q0;
      }
      m
  }

  /** The engine's match is a single line ending in its own last ".com". */
  lemma MatchIsKeyShaped(url: string, p: int, q: int)
    requires IsFirstMatch(url, p, q)
    ensures NoLineTerminator(url[p..q + 4])
    ensures IsLastCom(url[p..q + 4], q - p)
  {
    var m := url[p..q + 4];
    var k := q - p;
    forall i | 0 <= i < |m| ensures !IsLineTerminator(m[i]) {
      assert m[i] == url[p + i];
      if i >= k {
        assert url[p + i] in ".com";
      }
    }
    assert m[k] == url[q] && m[k + 1] == url[q + 1] && m[k + 2] == url[q + 2] && m[k + 3] == url[q + 3];
  }

  /** The key is a fixed point: normalising a key again changes nothing. */
  lemma StorageKeyIdempotent(url: string)
    ensures StorageKey(StorageKey(url)) == StorageKey(url)
  {
    var r := MatchDotCom(url);
    if r.Some? {
      var p, q :| IsFirstMatch(url, p, q) && r.value == url[p..q + 4];
      var m := url[p..q + 4];
      assert StorageKey(url) == m;
      MatchIsKeyShaped(url, p, q);
      assert m[..q - p + 4] == m;
    }
  }

  /**
   * When the page's origin is a ".com" host without a port and nothing after
   * it contains ".com", the popup's key is exactly that origin, so the
   * content script's lookup by `window.location.origin` finds what the popup
   * saved.
   */
  lemma KeyIsDotComOrigin(origin: string, rest: string)
    requires NoLineTerminator(origin + rest)
    requires |origin| >= 5 && ComAt(origin, |origin| - 4)
    requires forall j :: |origin| - 4 < j ==> !ComAt(origin + rest, j)
    ensures StorageKey(origin + rest) == origin
  {
    var url := origin + rest;
    var q := |origin| - 4;
    assert ComAt(url, q) by {
      assert url[q] == origin[q] && url[q + 1] == origin[q + 1];
      assert url[q + 2] == origin[q + 2] && url[q + 3] == origin[q + 3];
    }
    assert IsLastCom(url, q);
    assert url[..q + 4] == origin;
  }

  /**
   * A port breaks the agreement: the key drops it, while
   * `window.location.origin` keeps it.
   */
  lemma KeyDropsPort(host: string, port: string, path: string)
    requires NoLineTerminator(host + ":" + port + path)
    requires |host| >= 5 && ComAt(host, |host| - 4) && |port| > 0
    requires forall j :: |host| - 4 < j ==> !ComAt(host + ":" + port + path, j)
    ensures StorageKey(host + ":" + port + path) == host
    ensures StorageKey(host + ":" + port + path) != host + ":" + port
  {
    assert host + ":" + port + path == host + (":" + port + path);
    KeyIsDotComOrigin(host, ":" + port + path);
    assert |host + ":" + port| > |host|;
  }

  /**
   * Without any ".com" past index 0 the key is the whole URL, path included,
   * so it differs from the origin whenever there is a path.
   */
  lemma KeyKeepsPathWithoutDotCom(origin: string, path: string)
    requires NoLineTerminator(origin + path)
    requires forall q :: 1 <= q ==> !ComAt(origin + path, q)
    requires |path| > 0
    ensures StorageKey(origin + path) == origin + path
    ensures StorageKey(origin + path) != origin
  {
    assert |origin + path| > |origin|;
  }
}

=== FILE: wrappers.dfy ===
/** The optional value used for JavaScript's "field may be undefined". */
module Wrappers {

  datatype Option<+T> = None | Some(value: T)
}
